=== FILE: README.md ===
# Odoo Advanced Filtering — a Dafny model of the filter-state engine

Odoo-Advanced-Filtering is a browser user script. It adds spreadsheet-style column filters to
Odoo list views. Each filterable column header gets an icon that opens a popup listing the column's
distinct values, each with a checkbox, plus a "select all" box and a search field. Applying the popup
stores an allow-list for the column and hides every data row whose value is not allowed by every
filter of its table. The popup of a filtered column keeps showing the values it offered when the
column was first filtered (its *snapshot*), so the user can re-check values that are currently hidden.
All filters are cleared when the URL fragment names a different page.

This project models that state engine as pure functions over immutable data and proves properties
about it:

- `Seqs`: duplicate-free sequences, the shape of every value list the script builds from a `Set`.
- `Rows`: the table as the script sees it. It covers header `data-name`s, data rows with their
  displayed state, cells with tooltip and trimmed text, the cell value (tooltip first), the
  placeholder ("Satır Ekle" or all-empty) rows and the column lookup by name.
- `Extract`: the distinct values of a column, over all rows or over the displayed rows only.
- `FilterStore`: the two maps of the script's state. One maps table id to column to allow-list.
  The other holds the per-column snapshots and is keyed by column name only.
- `Engine`: `applyAllFilters`, as a declarative function and as a loop method proved equal to it;
  `applyFilter`, with its three branches; and the reset button.
- `Popup`: which values a popup lists and caches, the initial checkbox and select-all states, the
  select-all and per-value toggles, the search, the values collected on apply, and the rule that
  keeps one menu open at a time.
- `TableIdentity`: the table id. The popup reads it with a `""` fallback. The buttons generate one
  when the container has none.
- `Navigation`: the page signature parsed from the URL fragment, and `clearAllFilters`.
- `Scenarios`: worked examples on a four-row table.

The model spells out several behaviours of the code as written:

- An apply that checks no value, on a column with at least one value, stores `[]` and takes no
  snapshot. When the column had none, its popup reopens listing only the values still displayed,
  which for that column is nothing (`Popup.ReopenAfterEmptyApply`). On a column with no values
  the length test matches first and removes the filter instead.
- Snapshots are keyed by column name only. A same-named column of another table shares them, and an
  apply or reset in one table can add or remove the snapshot another table's popup lists
  (`Engine.ApplyKeepsOtherColumns` states exactly which entries stay).
- The reset button removes the column's snapshot only when the table already has a filter entry.
- An apply whose number of checked values equals the column's number of distinct values clears the
  filter. Only the lengths are compared.
- Initial select-all compares lengths, not contents.
- The menu toggle compares column names only, not tables.
- A page change empties the store but does not display rows again or reset icons. Rows hidden
  before the change stay hidden until the next apply or reset runs a visibility pass. The first
  partial apply after the change therefore snapshots only the rows displayed at that moment
  (`Navigation.SnapshotAfterClearUsesStaleRows`).
- A table without a list-view container gets a fresh generated id on every button press. Its popup
  reads the store under `""`.

## Model

| member | source | states |
|---|---|---|
| Rows.CellValue | Odoo-Advanced-Filtering.user.js:591 | A cell's value is its `data-tooltip` when that is non-empty, and its trimmed text otherwise. |
| Rows.FindColumnIndex | Odoo-Advanced-Filtering.user.js:753-761 | The result is the first header index whose `data-name` equals the name. It is None exactly when no header carries that name. |
| Rows.SpecialRowCases | Odoo-Advanced-Filtering.user.js:565-580 | A row is a placeholder when its first cell reads "Satır Ekle" or all its cells are empty. A row with no cells counts as one. |
| Rows.ClassifyRow | Odoo-Advanced-Filtering.user.js:564-579 | The script's two steps, the marker test on the first cell and then the scan for a cell with text, return true exactly for placeholder rows. A false result means some cell has text. |
| Extract.ColumnCells | Odoo-Advanced-Filtering.user.js:586-594 | The collected values are exactly those of contributing rows (data rows, not placeholders, displayed when asked, with a cell at the index). |
| Extract.Distinct | Odoo-Advanced-Filtering.user.js:584-596 | Set semantics: the result has no repeats, has the same elements as the input and is no longer than it. |
| Extract.AllUniqueValues | Odoo-Advanced-Filtering.user.js:583-594 | No repeats. A value is listed iff some non-placeholder data row has it in the column, hidden or not. |
| Extract.VisibleUniqueValues | Odoo-Advanced-Filtering.user.js:611-630 | The same, restricted to displayed rows. |
| Extract.VisibleWithinAll | Odoo-Advanced-Filtering.user.js:611-630 | Every displayed value is among all values, so there are no more of them. |
| Extract.NothingHiddenSameValues | Odoo-Advanced-Filtering.user.js:583-630 | When no data row is hidden, the visible and the full value lists have the same elements. |
| Extract.NothingDisplayedNoValues | Odoo-Advanced-Filtering.user.js:611-630 | When every non-placeholder data row with a cell at the index is hidden, there are no visible values. |
| Extract.PlaceholderAddsNothing | Odoo-Advanced-Filtering.user.js:583-630 | A placeholder row, tooltips or not, adds no value: appending one leaves both the full and the visible value lists unchanged. |
| FilterStore.Filters | Odoo-Advanced-Filtering.user.js:706 | A table with no entry reads as having no filters. Otherwise the result is its entry. |
| Engine.ApplyAllFilters | Odoo-Advanced-Filtering.user.js:705-750 | Only data rows' displayed state changes. Placeholder rows are displayed. With no filters every data row is displayed. Otherwise a real data row is hidden iff some filter's resolvable column has a cell whose value is outside its allow-list. |
| Engine.RecomputeVisibility | Odoo-Advanced-Filtering.user.js:705-750 | The script's loop, with early `continue` for an unknown column or missing cell and `break` on the first rejection, over the filter entries in any order, computes the same table as Engine.ApplyAllFilters. |
| Engine.ApplyToStore | Odoo-Advanced-Filtering.user.js:661-698 | The table gets an entry. Only this table's entry for the column and the column's snapshot change. A full-length allow-list removes both. An empty one stores `[]` and leaves snapshots alone. Any other stores the list and keeps an existing snapshot, else snapshots the displayed values taken before the pass. Snapshots stay repeat-free. |
| Engine.ApplyFilter | Odoo-Advanced-Filtering.user.js:652-702 | The store is updated as Engine.ApplyToStore states, then visibility is recomputed from the new store over the table. |
| Engine.ResetColumn | Odoo-Advanced-Filtering.user.js:449-462 | When the table has an entry, the column's filter and its snapshot are removed and nothing else changes. Without one the store is untouched. Visibility is recomputed. |
| Engine.VisibilityIgnoresHidden | Odoo-Advanced-Filtering.user.js:712-749 | The pass does not depend on which rows were displayed before it. |
| Engine.RecomputeIdempotent | Odoo-Advanced-Filtering.user.js:705-750 | A second pass with the same filters changes nothing. |
| Engine.EmptyApplyHidesRows | Odoo-Advanced-Filtering.user.js:676-680 | After an empty apply on a column that has values and resolves, every real data row with a cell there is hidden. |
| Engine.ResetLastFilterShowsAll | Odoo-Advanced-Filtering.user.js:449-462 | Resetting a table's only filtered column displays every data row again. |
| Engine.ResnapshotAfterReset | Odoo-Advanced-Filtering.user.js:458 | After a reset on a table that has a filter entry, the next partial apply on the column takes a fresh snapshot of the values displayed then. |
| Engine.ApplyKeepsOtherColumns | Odoo-Advanced-Filtering.user.js:666-698 | Applying one column keeps every other column's filter, in every table, and its snapshot. |
| Engine.ResetKeepsOtherColumns | Odoo-Advanced-Filtering.user.js:450-459 | Resetting one column keeps every other column's filter, in every table, and its snapshot. |
| Popup.CandidateList | Odoo-Advanced-Filtering.user.js:299-318 | A filtered column lists its snapshot, or the displayed values, which it then caches. An unfiltered column lists the displayed values when the table has other filters, else all values. Filters never change, and the list is repeat-free when snapshots are. |
| Popup.OpenPopup | Odoo-Advanced-Filtering.user.js:352-402 | One choice per listed value, in order. A filtered column checks its allow-list members, an unfiltered one the displayed values when other filters exist, and otherwise every value. |
| Popup.UnfilteredPopupAllChecked | Odoo-Advanced-Filtering.user.js:366-402 | An unfiltered column opens with select-all and every value checked. |
| Popup.FilteredPopupSelectAll | Odoo-Advanced-Filtering.user.js:354-397 | For a filtered column whose allow-list is repeat-free and drawn from the listed values, the length test for select-all agrees with "there is a value and all are checked". |
| Popup.CountChecked | Odoo-Advanced-Filtering.user.js:503 | The count is at most the number of options. It equals it iff all are checked, and is 0 iff none is. |
| Popup.RecomputeSelectAll | Odoo-Advanced-Filtering.user.js:501-512 | Select-all is checked iff there is an option and every option is checked. |
| Popup.ToggleSelectAll | Odoo-Advanced-Filtering.user.js:492-498 | Select-all flips, and every value checkbox, searched out or not, takes its new state. |
| Popup.SelectAllToggleConsistent | Odoo-Advanced-Filtering.user.js:492-512 | On a non-empty list, toggling select-all leaves it equal to the recomputed state. |
| Popup.ToggleChoice | Odoo-Advanced-Filtering.user.js:514-533 | Only the clicked checkbox flips, and select-all becomes "some option and all checked". |
| Popup.Search | Odoo-Advanced-Filtering.user.js:535-545 | For a given lower-case mapping, a value stays displayed iff its lower-cased label ("(Boş)" for the empty value) contains the lower-cased search text. Values, checkboxes and select-all are untouched. |
| Popup.EmptySearchShowsAll | Odoo-Advanced-Filtering.user.js:536-544 | An empty search displays every value, for any lower-case mapping that keeps "" empty, as `toLowerCase` does. |
| Popup.CollectChecked | Odoo-Advanced-Filtering.user.js:466-475 | The collected values are exactly the checked ones, one per checked box. When all are checked they are all the listed values, in order. |
| Popup.SearchKeepsCollected | Odoo-Advanced-Filtering.user.js:466-475 | Searching never changes which values an apply hands on, whatever the lower-case mapping. |
| Popup.ConfirmApply | Odoo-Advanced-Filtering.user.js:466-490 | The checked values go to applyFilter for the popup's column, and the menu closes. As many checked values as the column has distinct values, whichever they are, leaves the column unfiltered and drops its snapshot. None checked, on a column with values, stores `[]`. Any other count stores exactly the checked values. |
| Popup.ConfirmReset | Odoo-Advanced-Filtering.user.js:439-464 | The popup's column is reset and the menu closes. On a table with a filter entry, the column ends with neither a filter nor a snapshot. |
| Popup.OpenThenApplyUnchanged | Odoo-Advanced-Filtering.user.js:466-490 | On a table with no filters, opening a popup and applying it unchanged leaves the column unfiltered and without a snapshot. |
| Popup.ReopenAfterOtherApply | Odoo-Advanced-Filtering.user.js:303-305 | A filtered column with a snapshot keeps listing it after an apply on another column in any table. |
| Popup.ReopenAfterOtherReset | Odoo-Advanced-Filtering.user.js:303-305 | The same across a reset of another column. |
| Popup.ReopenAfterPartialApply | Odoo-Advanced-Filtering.user.js:692-695 | After a partial apply the popup lists the existing snapshot, or the values displayed before the apply. |
| Popup.ReopenAfterEmptyApply | Odoo-Advanced-Filtering.user.js:676-680 | After an empty apply on a column without a snapshot, the popup lists and caches the values displayed after it. Those are none when the column resolves to the popup's index. |
| Popup.CloseMenu | Odoo-Advanced-Filtering.user.js:276-282 | Closing always leaves no menu open. |
| Popup.ToggleMenu | Odoo-Advanced-Filtering.user.js:213-228 | A click on the icon of the column whose menu is open closes it. Any other click opens a fresh popup for the clicked column in its place. |
| Popup.ToggleTwiceCloses | Odoo-Advanced-Filtering.user.js:213-228 | Two clicks on the same icon open and then close its menu. The second click leaves the store as the first left it. |
| TableIdentity.MenuTableId | Odoo-Advanced-Filtering.user.js:290 | The popup's id is the container's `data-id`, or `""` without a container. |
| TableIdentity.HandlerTableId | Odoo-Advanced-Filtering.user.js:653-659 | The buttons' id is never empty. An existing id is kept. Otherwise the id is "table_" plus the suffix, and an attached container stores it. |
| TableIdentity.AttachedIdIsStable | Odoo-Advanced-Filtering.user.js:442-447 | After one button press an attached table keeps the same id whatever later suffixes are, and the popup reads the store under it. |
| TableIdentity.DetachedIdIsFresh | Odoo-Advanced-Filtering.user.js:654-659 | A detached table gets distinct ids for distinct suffixes, none of them the popup's `""`. |
| Navigation.Split | Odoo-Advanced-Filtering.user.js:857 | String split on one character: there is always at least one piece, and no piece holds the separator. |
| Navigation.JoinSplit | Odoo-Advanced-Filtering.user.js:857 | Joining the pieces with the separator gives back the input, so no character is lost or added. |
| Navigation.SplitJoin | Odoo-Advanced-Filtering.user.js:857 | Splitting a join of separator-free pieces gives back those pieces. |
| Navigation.ParsePairOf | Odoo-Advanced-Filtering.user.js:858-859 | Pieces joined by `=`, the first two non-empty, parse to the pair of the first two; anything after a second `=` is dropped. |
| Navigation.ParsePairIgnored | Odoo-Advanced-Filtering.user.js:858-859 | A piece with no `=`, a leading `=`, or a single trailing `=` defines nothing. |
| Navigation.ParsePairEmptyValue | Odoo-Advanced-Filtering.user.js:858-859 | A piece with nothing between its first two `=`, such as `k==v` or `k==`, defines nothing. |
| Navigation.ParsePairExact | Odoo-Advanced-Filtering.user.js:858-859 | A piece defines the pair `k`, `v` iff it reads `k=v` or `k=v=…`, with `k` and `v` non-empty and free of `=`. |
| Navigation.ParamsDefined | Odoo-Advanced-Filtering.user.js:856-860 | A key is defined iff some piece sets it. |
| Navigation.ParamsLastWins | Odoo-Advanced-Filtering.user.js:856-860 | A key holds the value of the last piece that sets it. |
| Navigation.Signature | Odoo-Advanced-Filtering.user.js:848-864 | The signature is `""` iff the fragment is empty. It is never empty otherwise, because it always has its underscores. |
| Navigation.SignatureOfFragment | Odoo-Advanced-Filtering.user.js:855-863 | `#action=A&model=M&view_type=V&id=I` yields `M_V_A_I`. |
| Navigation.OtherKeyIgnored | Odoo-Advanced-Filtering.user.js:863 | Appending a piece for any key other than the four read leaves the signature unchanged. |
| Navigation.LaterIdOverrides | Odoo-Advanced-Filtering.user.js:859 | An appended `id=` pair overrides an earlier one. |
| Navigation.StartGuard | Odoo-Advanced-Filtering.user.js:899 | The first signature is recorded, with nothing filtered yet. |
| Navigation.ClearAllFilters | Odoo-Advanced-Filtering.user.js:870-894 | It reports a clear iff the signature changed. The signature is recorded. A clear empties both maps, and no clear changes nothing. |
| Navigation.ClearIdempotent | Odoo-Advanced-Filtering.user.js:870-894 | A second check on the same page clears nothing and changes nothing. |
| Navigation.StartThenCheck | Odoo-Advanced-Filtering.user.js:899 | A check on the starting page clears nothing. |
| Navigation.ClearShowsEveryRow | Odoo-Advanced-Filtering.user.js:880-882 | After a clear the store has no filters, so the next visibility pass, run by an apply or a reset, displays every data row. The clear itself touches no row. |
| Navigation.SnapshotAfterClearUsesStaleRows | Odoo-Advanced-Filtering.user.js:870-894 | The clear leaves rows as they were, so the first partial apply after it snapshots the values of the rows still displayed, stale hidden rows left out. |
| Scenarios.StatusValues | Odoo-Advanced-Filtering.user.js:583-594 | The example's status column has exactly the three values Open, Closed and Pending. |
| Scenarios.FilterStatusOpen | Odoo-Advanced-Filtering.user.js:681-701 | Filtering status to Open stores that one filter, keeps the two Open rows displayed and hides the other two. |
| Scenarios.RegionPopupNarrowed | Odoo-Advanced-Filtering.user.js:312-314 | The region popup then offers only the regions of the displayed rows, North and East. |

## Left out

- The sort applied to value lists (`parseFloat` with a `localeCompare` fallback) is not modelled. It
  relies on floating point and locale collation, and it is not a total order on mixed lists. Value
  lists are kept in first-occurrence order, and every statement is about membership and counts.
- Extract.AllUniqueValues: does not state the sorted order the script returns, for the reason above.
- Extract.VisibleUniqueValues: does not state the sorted order the script returns, for the reason
  above.
- Popup.Search: the lower-case mapping is a parameter standing for `String.prototype.toLowerCase`.
  The Unicode case tables are not modelled, so nothing is proved about particular letters such as
  "Ş" or "İ". Every property of the search holds for any mapping.
- The values are assumed free of HTML markup and of `"`. The popup builds its checkboxes through
  `innerHTML`, where such a value would read back changed from `checkbox.value` and the label.
- Cell text is taken as already trimmed (`textContent.trim()`). The displayed state is a flag,
  standing in for `getComputedStyle(row).display`, and a pass sets it for data rows only.
- Column names are assumed to be ordinary object keys. A name such as `__proto__` behaves differently
  on a JavaScript object.
- Object.entries order: the visibility loop is proved correct for the filter keys taken in any order.
- The random suffix of generated table ids (`Math.random`) is an input.
- DOM construction, styles, positioning and icon placement are not modelled, nor are the header
  eligibility rules (lines 153-172) and the header display name.
- The outside-click handler, the event wiring, the mutation observers, timers, the
  `processAllTables` re-run after a clear, and console logging are not modelled.
- The icon's active class (`updateFilterIconState`) is not modelled. An apply or a reset sets it
  from the column's filter entry. A page change leaves it as it was.
- The select-all update inside the apply handler (lines 477-486) is not modelled. The menu closes
  right after it, so it has no observable effect.
- The compatibility alias `getUniqueColumnValues` is not modelled. It is the same function as
  Extract.AllUniqueValues.
- The fragment is taken as `URL.hash`, which is `""` or `#` followed by text. Reading it from
  `window.location` is left out.

=== FILE: engine.dfy ===
/** The filter engine: row visibility from a table's column filters, and the apply and reset
    operations that update the store and then recompute visibility. */
module Engine {
  import opened Wrappers
  import opened Rows
  import opened Extract
  import opened FilterStore

  /** The store and table after an engine operation. */
  datatype Session = Session(store: Store, table: Table)

  /** The filter on `column` with allow-list `allowed` rejects `row`: the column name resolves to a
      header index, the row has a cell there, and that cell's value is not allowed. An unresolvable
      column or a missing cell never rejects. */
  predicate Blocks(header: seq<Option<string>>, row: Row, column: string, allowed: seq<string>) {
    match FindColumnIndex(header, column)
    case None => false
    case Some(i) => i < |row.cells| && CellValue(row.cells[i]) !in allowed
  }

  /** Whether a data row is displayed under `filters`. */
  predicate Shown(header: seq<Option<string>>, filters: ColumnFilters, row: Row) {
    || IsSpecialRow(row)
    || |filters| == 0
    || forall c | c in filters :: !Blocks(header, row, c, filters[c])
  }

  /** One row after a visibility pass; rows without `o_data_row` are not touched. */
  function Refresh(header: seq<Option<string>>, filters: ColumnFilters, row: Row): Row {
    if row.isDataRow then row.(hidden := !Shown(header, filters, row)) else row
  }

  /** Same header and same rows, up to the rows' displayed state. */
  predicate SameContent(t: Table, u: Table) {
    && t.header == u.header
    && |t.rows| == |u.rows|
    && forall i :: 0 <= i < |t.rows| ==>
         t.rows[i].isDataRow == u.rows[i].isDataRow && t.rows[i].cells == u.rows[i].cells
  }

  /** applyAllFilters: recompute every data row's displayed state from the table's filters. */
  function ApplyAllFilters(s: Store, t: Table, tableId: string): (r: Table)
    ensures SameContent(r, t)
    ensures forall i :: 0 <= i < |t.rows| && !t.rows[i].isDataRow ==> r.rows[i] == t.rows[i]
    // placeholder rows are always displayed
    ensures forall i :: 0 <= i < |t.rows| && t.rows[i].isDataRow && IsSpecialRow(t.rows[i]) ==>
              !r.rows[i].hidden
    // with no filter entry for the table, every data row is displayed
    ensures |Filters(s, tableId)| == 0 ==>
              forall i :: 0 <= i < |t.rows| && t.rows[i].isDataRow ==> !r.rows[i].hidden
    // otherwise a real data row is hidden exactly when some filter rejects it
    ensures forall i :: 0 <= i < |t.rows| && t.rows[i].isDataRow && !IsSpecialRow(t.rows[i]) ==>
              (r.rows[i].hidden <==>
                 exists c :: c in Filters(s, tableId) && Blocks(t.header, t.rows[i], c, Filters(s, tableId)[c]))
  {
    var f := Filters(s, tableId);
    Table(t.header, seq(|t.rows|, i requires 0 <= i < |t.rows| => Refresh(t.header, f, t.rows[i])))
  }

  /** The script's loop over rows and over the filter entries, with its early `continue`s for an
      unresolvable column or a missing cell and its `break` on the first rejecting filter. The
      entries are visited in an arbitrary order; the outcome is the same for every order. */
  method RecomputeVisibility(s: Store, t: Table, tableId: string) returns (r: Table)
    ensures r == ApplyAllFilters(s, t, tableId)
  {
    var filters := Filters(s, tableId);
    var hasActiveFilters := |filters| > 0;
    var rows: seq<Row> := [];
    var n := 0;
    while n < |t.rows|
      invariant 0 <= n <= |t.rows|
      invariant |rows| == n
      invariant forall i :: 0 <= i < n ==> rows[i] == Refresh(t.header, filters, t.rows[i])
    {
      var row := t.rows[n];
      if !row.isDataRow {
        rows := rows + [row];
      } else if IsSpecialRow(row) || !hasActiveFilters {
        rows := rows + [row.(hidden := false)];
      } else {
        var shouldShow := true;
        var pending := filters.Keys;
        while pending != {}
          invariant pending <= filters.Keys
          invariant shouldShow
          invariant forall c :: c in filters && c !in pending ==> !Blocks(t.header, row, c, filters[c])
          decreases |pending|
        {
          var c :| c in pending;
          pending := pending - {c};
          var index := FindColumnIndex(t.header, c);
          if index.None? {
            continue;
          }
          if index.value >= |row.cells| {
            continue;
          }
          var value := CellValue(row.cells[index.value]);
          if value !in filters[c] {
            assert Blocks(t.header, row, c, filters[c]);
            shouldShow := false;
            break;
          }
        }
        rows := rows + [row.(hidden := !shouldShow)];
      }
      n := n + 1;
    }
    r := Table(t.header, rows);
  }

  /** applyFilter: store the checked values of `column` (header index `index`) for table `tableId`,
      then recompute visibility. */
  function ApplyFilter(s: Store, t: Table, tableId: string, column: string, index: nat,
                       allowed: seq<string>): (r: Session)
    ensures r.store == ApplyToStore(s, t, tableId, column, index, allowed)
    ensures r.table == ApplyAllFilters(r.store, t, tableId)
  {
    var s' := ApplyToStore(s, t, tableId, column, index, allowed);
    Session(s', ApplyAllFilters(s', t, tableId))
  }

  /** The store update of applyFilter. A list as long as the column's distinct values means "no
      restriction"; an empty list blocks the column; any other list becomes its allow-list, and
      the column's snapshot is taken from the currently displayed values unless one exists. */
  function ApplyToStore(s: Store, t: Table, tableId: string, column: string, index: nat,
                        allowed: seq<string>): (r: Store)
    // the table gets an entry; other tables, other columns and other snapshots are untouched
    ensures tableId in r.tables
    ensures r.tables - {tableId} == s.tables - {tableId}
    ensures r.tables[tableId] - {column} == Filters(s, tableId) - {column}
    ensures r.snapshots - {column} == s.snapshots - {column}
    // full length: no restriction, whatever the values
    ensures |allowed| == |AllUniqueValues(t, index)| ==>
              column !in r.tables[tableId] && column !in r.snapshots
    // empty: an explicit empty allow-list, snapshot left as it was
    ensures |allowed| != |AllUniqueValues(t, index)| && allowed == [] ==>
              column in r.tables[tableId] && r.tables[tableId][column] == [] && r.snapshots == s.snapshots
    // partial: exactly the given list; a snapshot is created only when absent, never overwritten
    ensures |allowed| != |AllUniqueValues(t, index)| && allowed != [] ==>
              && column in r.tables[tableId] && r.tables[tableId][column] == allowed
              && column in r.snapshots
              && (column in s.snapshots ==> r.snapshots[column] == s.snapshots[column])
              && (column !in s.snapshots ==> r.snapshots[column] == VisibleUniqueValues(t, index))
    ensures WellFormed(s) ==> WellFormed(r)
  {
    var f := Filters(s, tableId);
    if |allowed| == |AllUniqueValues(t, index)| then
      Store(s.tables[tableId := f - {column}], s.snapshots - {column})
    else if |allowed| == 0 then
      Store(s.tables[tableId := f[column := []]], s.snapshots)
    else if column in s.snapshots then
      Store(s.tables[tableId := f[column := allowed]], s.snapshots)
    else
      Store(s.tables[tableId := f[column := allowed]], s.snapshots[column := VisibleUniqueValues(t, index)])
  }

  /** The reset button: drop `column`'s filter for table `tableId` and, when the table has an entry
      in the store, the column's snapshot; then recompute visibility. A table without an entry is
      left without one. */
  function ResetColumn(s: Store, t: Table, tableId: string, column: string): (r: Session)
    ensures r.store.tables.Keys == s.tables.Keys
    ensures r.store.tables - {tableId} == s.tables - {tableId}
    ensures tableId in s.tables ==>
              && column !in r.store.tables[tableId]
              && r.store.tables[tableId] - {column} == s.tables[tableId] - {column}
              && column !in r.store.snapshots
              && r.store.snapshots - {column} == s.snapshots - {column}
    ensures tableId !in s.tables ==> r.store == s
    ensures WellFormed(s) ==> WellFormed(r.store)
    ensures r.table == ApplyAllFilters(r.store, t, tableId)
  {
    var s' := ResetStore(s, tableId, column);
    Session(s', ApplyAllFilters(s', t, tableId))
  }

  /** The store update of the reset button. */
  function ResetStore(s: Store, tableId: string, column: string): (r: Store)
    ensures r.tables.Keys == s.tables.Keys
    ensures r.tables - {tableId} == s.tables - {tableId}
    ensures tableId in s.tables ==>
              && column !in r.tables[tableId]
              && r.tables[tableId] - {column} == s.tables[tableId] - {column}
              && column !in r.snapshots
              && r.snapshots - {column} == s.snapshots - {column}
    ensures tableId !in s.tables ==> r == s
    ensures WellFormed(s) ==> WellFormed(r)
  {
    if tableId in s.tables then
      Store(s.tables[tableId := s.tables[tableId] - {column}], s.snapshots - {column})
    else s
  }

  /** Visibility depends only on the filters and on the rows' contents: the displayed state the
      data rows had before the pass plays no part. */
  lemma VisibilityIgnoresHidden(s: Store, t: Table, u: Table, tableId: string)
    requires SameContent(t, u)
    requires forall i :: 0 <= i < |t.rows| && !t.rows[i].isDataRow ==> t.rows[i] == u.rows[i]
    ensures ApplyAllFilters(s, t, tableId) == ApplyAllFilters(s, u, tableId)
  {
    var a := ApplyAllFilters(s, t, tableId);
    var b := ApplyAllFilters(s, u, tableId);
    forall i | 0 <= i < |a.rows| ensures a.rows[i] == b.rows[i] {
      assert a.rows[i].hidden == b.rows[i].hidden;
    }
  }

  /** Recomputing visibility a second time with the same filters changes nothing. */
  lemma RecomputeIdempotent(s: Store, t: Table, tableId: string)
    ensures ApplyAllFilters(s, ApplyAllFilters(s, t, tableId), tableId) == ApplyAllFilters(s, t, tableId)
  {
    VisibilityIgnoresHidden(s, ApplyAllFilters(s, t, tableId), t, tableId);
  }

  /** After an empty apply on a column with at least one value, every real data row whose cell
      in that column can be found is hidden, and placeholder rows stay displayed. */
  lemma EmptyApplyHidesRows(s: Store, t: Table, tableId: string, column: string, index: nat)
    requires |AllUniqueValues(t, index)| > 0
    ensures var r := ApplyFilter(s, t, tableId, column, index, []);
            forall i :: 0 <= i < |t.rows| && t.rows[i].isDataRow ==>
              if IsSpecialRow(t.rows[i]) then !r.table.rows[i].hidden
              else
                (FindColumnIndex(t.header, column).Some? &&
                 FindColumnIndex(t.header, column).value < |t.rows[i].cells|) ==> r.table.rows[i].hidden
  {
    var r := ApplyFilter(s, t, tableId, column, index, []);
    var f := Filters(r.store, tableId);
    assert column in f && f[column] == [];
    forall i | 0 <= i < |t.rows| && t.rows[i].isDataRow && !IsSpecialRow(t.rows[i]) &&
               FindColumnIndex(t.header, column).Some? &&
               FindColumnIndex(t.header, column).value < |t.rows[i].cells|
      ensures r.table.rows[i].hidden
    {
      assert Blocks(t.header, t.rows[i], column, f[column]);
    }
  }

  /** Resetting the table's last filtered column returns it to the unfiltered state: every data
      row is displayed again. */
  lemma ResetLastFilterShowsAll(s: Store, t: Table, tableId: string, column: string)
    requires tableId in s.tables
    requires forall c :: c in s.tables[tableId] ==> c == column
    ensures var r := ResetColumn(s, t, tableId, column);
            |Filters(r.store, tableId)| == 0 &&
            forall i :: 0 <= i < |t.rows| && t.rows[i].isDataRow ==> !r.table.rows[i].hidden
  {
    var r := ResetColumn(s, t, tableId, column);
    assert Filters(r.store, tableId).Keys == {};
  }

  /** A column whose filter was reset takes a new snapshot on its next partial apply, from the
      values displayed at that time. */
  lemma ResnapshotAfterReset(s: Store, t: Table, tableId: string, column: string, index: nat,
                             allowed: seq<string>)
    requires tableId in s.tables
    requires allowed != []
    ensures var r := ResetColumn(s, t, tableId, column);
            |allowed| != |AllUniqueValues(r.table, index)| ==>
              ApplyFilter(r.store, r.table, tableId, column, index, allowed).store.snapshots[column]
              == VisibleUniqueValues(r.table, index)
  {
  }

  /** Applying a filter to column `d` leaves the filter and the snapshot of every other column as
      they were, in this table and in every other. */
  lemma ApplyKeepsOtherColumns(s: Store, t: Table, tableId: string, d: string, index: nat,
                               allowed: seq<string>, id: string, c: string)
    requires c != d
    ensures var r := ApplyFilter(s, t, tableId, d, index, allowed).store;
            && (c in Filters(r, id) <==> c in Filters(s, id))
            && (c in Filters(s, id) ==> Filters(r, id)[c] == Filters(s, id)[c])
            && (c in r.snapshots <==> c in s.snapshots)
            && (c in s.snapshots ==> r.snapshots[c] == s.snapshots[c])
  {
    var r := ApplyFilter(s, t, tableId, d, index, allowed).store;
    if id == tableId {
      assert c in Filters(r, id) <==> c in Filters(r, id) - {d};
      assert c in Filters(s, id) <==> c in Filters(s, id) - {d};
    } else {
      assert id in r.tables <==> id in r.tables - {tableId};
      assert id in s.tables <==> id in s.tables - {tableId};
    }
    assert c in r.snapshots <==> c in r.snapshots - {d};
    assert c in s.snapshots <==> c in s.snapshots - {d};
  }

  /** Resetting column `d` of one table leaves every other column's filter and snapshot as they were. */
  lemma ResetKeepsOtherColumns(s: Store, t: Table, tableId: string, d: string, id: string, c: string)
    requires c != d
    ensures var r := ResetColumn(s, t, tableId, d).store;
            && (c in Filters(r, id) <==> c in Filters(s, id))
            && (c in Filters(s, id) ==> Filters(r, id)[c] == Filters(s, id)[c])
            && (c in r.snapshots <==> c in s.snapshots)
            && (c in s.snapshots ==> r.snapshots[c] == s.snapshots[c])
  {
    var r := ResetColumn(s, t, tableId, d).store;
    if tableId in s.tables {
      if id == tableId {
        assert c in Filters(r, id) <==> c in Filters(r, id) - {d};
        assert c in Filters(s, id) <==> c in Filters(s, id) - {d};
      } else {
        assert id in r.tables <==> id in r.tables - {tableId};
        assert id in s.tables <==> id in s.tables - {tableId};
      }
      assert c in r.snapshots <==> c in r.snapshots - {d};
      assert c in s.snapshots <==> c in s.snapshots - {d};
    }
  }
}

=== FILE: extract.dfy ===
/** The value extractor: the distinct display values of one column, over every data row or only
    over the rows currently displayed. Results keep first-occurrence order; the script's numeric /
    locale sort is not modelled, so only membership and count are promised. */
module Extract {
  import opened Seqs
  import opened Rows

  /** `row` contributes a value to column `index`: it is an `o_data_row`, not a placeholder,
      displayed when only visible rows count, and it has a cell at that index. */
  predicate Contributes(row: Row, index: nat, visibleOnly: bool) {
    row.isDataRow && !IsSpecialRow(row) && (!visibleOnly || !row.hidden) && index < |row.cells|
  }

  /** `row` contributes the value `v` to column `index`. */
  predicate HasValue(row: Row, index: nat, visibleOnly: bool, v: string) {
    Contributes(row, index, visibleOnly) && CellValue(row.cells[index]) == v
  }

  /** The column's cell values in row order, duplicates included. */
  function ColumnCells(rows: seq<Row>, index: nat, visibleOnly: bool): (r: seq<string>)
    ensures |r| <= |rows|
    ensures forall v :: v in r <==> exists i :: 0 <= i < |rows| && HasValue(rows[i], index, visibleOnly, v)
    decreases |rows|
  {
    if rows == [] then []
    else
      var init := rows[..|rows| - 1];
      var last := rows[|rows| - 1];
      var rest := ColumnCells(init, index, visibleOnly);
      assert forall i :: 0 <= i < |init| ==> init[i] == rows[i];
      if Contributes(last, index, visibleOnly) then rest + [CellValue(last.cells[index])] else rest
  }

  /** The elements of `s` in first-occurrence order, each once: what adding them to a JavaScript
      `Set` and reading it back yields. */
  function Distinct(s: seq<string>): (r: seq<string>)
    ensures NoDup(r)
    ensures forall x :: x in r <==> x in s
    ensures |r| <= |s|
    decreases |s|
  {
    if s == [] then []
    else
      var rest := Distinct(s[..|s| - 1]);
      var x := s[|s| - 1];
      assert forall y :: y in s <==> y in s[..|s| - 1] || y == x by {
        assert s == s[..|s| - 1] + [x];
      }
      if x in rest then rest else rest + [x]
  }

  /** getAllUniqueColumnValues: the distinct values of column `index` over every non-placeholder
      data row that has that cell, hidden or not. */
  function AllUniqueValues(t: Table, index: nat): (r: seq<string>)
    ensures NoDup(r)
    ensures forall v :: v in r <==> exists i :: 0 <= i < |t.rows| && HasValue(t.rows[i], index, false, v)
  {
    Distinct(ColumnCells(t.rows, index, false))
  }

  /** getVisibleUniqueColumnValues: as above, over the rows currently displayed only. */
  function VisibleUniqueValues(t: Table, index: nat): (r: seq<string>)
    ensures NoDup(r)
    ensures forall v :: v in r <==> exists i :: 0 <= i < |t.rows| && HasValue(t.rows[i], index, true, v)
  {
    Distinct(ColumnCells(t.rows, index, true))
  }

  /** A placeholder row adds no value to any column, even when its cells carry tooltips: adding one
      at the end of the table leaves both value lists as they were. */
  lemma PlaceholderAddsNothing(t: Table, row: Row, index: nat)
    requires IsSpecialRow(row)
    ensures AllUniqueValues(Table(t.header, t.rows + [row]), index) == AllUniqueValues(t, index)
    ensures VisibleUniqueValues(Table(t.header, t.rows + [row]), index) == VisibleUniqueValues(t, index)
  {
    var rows := t.rows + [row];
    assert rows[..|rows| - 1] == t.rows;
    assert ColumnCells(rows, index, false) == ColumnCells(t.rows, index, false);
    assert ColumnCells(rows, index, true) == ColumnCells(t.rows, index, true);
  }

  /** When every cell the column offers lies in `values`, so does every listed value. */
  lemma ValuesWithin(t: Table, index: nat, values: seq<string>)
    requires forall i :: 0 <= i < |t.rows| && Contributes(t.rows[i], index, false) ==>
               CellValue(t.rows[i].cells[index]) in values
    ensures forall v :: v in AllUniqueValues(t, index) ==> v in values
  {
  }

  /** The values offered from visible rows are among all the column's values, and no more numerous. */
  lemma VisibleWithinAll(t: Table, index: nat)
    ensures forall v :: v in VisibleUniqueValues(t, index) ==> v in AllUniqueValues(t, index)
    ensures |VisibleUniqueValues(t, index)| <= |AllUniqueValues(t, index)|
  {
    var vis := VisibleUniqueValues(t, index);
    var all := AllUniqueValues(t, index);
    forall v | v in vis ensures v in all {
      var i :| 0 <= i < |t.rows| && HasValue(t.rows[i], index, true, v);
      assert HasValue(t.rows[i], index, false, v);
    }
    NoDupSubset(vis, all);
  }

  /** When no data row is hidden, the visible values are exactly all values. */
  lemma NothingHiddenSameValues(t: Table, index: nat)
    requires forall i :: 0 <= i < |t.rows| && t.rows[i].isDataRow ==> !t.rows[i].hidden
    ensures forall v :: v in VisibleUniqueValues(t, index) <==> v in AllUniqueValues(t, index)
    ensures |VisibleUniqueValues(t, index)| == |AllUniqueValues(t, index)|
  {
    VisibleWithinAll(t, index);
    var vis := VisibleUniqueValues(t, index);
    var all := AllUniqueValues(t, index);
    forall v | v in all ensures v in vis {
      var i :| 0 <= i < |t.rows| && HasValue(t.rows[i], index, false, v);
      assert HasValue(t.rows[i], index, true, v);
    }
    NoDupSubset(all, vis);
  }

  /** When every row that could contribute to the column is hidden, no value is visible. */
  lemma NothingDisplayedNoValues(t: Table, index: nat)
    requires forall i :: 0 <= i < |t.rows| && Contributes(t.rows[i], index, false) ==> t.rows[i].hidden
    ensures VisibleUniqueValues(t, index) == []
  {
    NoDisplayedCells(t.rows, index);
  }

  lemma {:induction false} NoDisplayedCells(rows: seq<Row>, index: nat)
    requires forall i :: 0 <= i < |rows| && Contributes(rows[i], index, false) ==> rows[i].hidden
    ensures ColumnCells(rows, index, true) == []
    decreases |rows|
  {
    if rows != [] {
      NoDisplayedCells(rows[..|rows| - 1], index);
    }
  }
}

=== FILE: filter_store.dfy ===
/** The filter store: process-wide state of the filtering script.
    `tables` maps a table id to that table's column filters (column name to allow-list);
    `snapshots` maps a column name to the value list frozen for its popup. The snapshot map is keyed
    by column name alone, so two tables with a same-named column share one entry. */
module FilterStore {
  import opened Seqs

  /** Column name to allow-list. An empty allow-list is an explicit "show nothing". */
  type ColumnFilters = map<string, seq<string>>

  datatype Store = Store(tables: map<string, ColumnFilters>, snapshots: map<string, seq<string>>)

  /** A store with no filters and no snapshots, as at script start and after a page change. */
  const Empty: Store := Store(map[], map[])

  /** The table's column filters, or none when the table has no entry. */
  function Filters(s: Store, tableId: string): (f: ColumnFilters)
    ensures tableId !in s.tables ==> f == map[]
    ensures tableId in s.tables ==> f == s.tables[tableId]
  {
    if tableId in s.tables then s.tables[tableId] else map[]
  }

  /** Every snapshot lists each value once, as the value extractor produces them. */
  predicate WellFormed(s: Store) {
    forall c :: c in s.snapshots ==> NoDup(s.snapshots[c])
  }
}

=== FILE: navigation.dfy ===
/** The navigation guard: a page signature read from the URL fragment, and the clearing of all
    filter state when the signature changes. The fragment is taken as the string `location.hash`
    yields ("" or "#..."), without percent-decoding. */
module Navigation {
  import opened Wrappers
  import opened Rows
  import opened Extract
  import opened FilterStore
  import opened Engine

  /** `parts` joined with `sep` between consecutive parts. */
  function Join(parts: seq<string>, sep: char): string
    requires |parts| > 0
    decreases |parts|
  {
    if |parts| == 1 then parts[0] else parts[0] + [sep] + Join(parts[1..], sep)
  }

  /** JavaScript's `s.split(sep)` for a one-character separator: the pieces between separators,
      empty pieces included, and always at least one piece. */
  function Split(s: string, sep: char): (r: seq<string>)
    ensures |r| > 0
    ensures forall i :: 0 <= i < |r| ==> sep !in r[i]
    decreases |s|
  {
    if s == [] then [""]
    else
      var rest := Split(s[1..], sep);
      if s[0] == sep then [""] + rest
      else [[s[0]] + rest[0]] + rest[1..]
  }

  /** Joining the pieces of a split gives back the string: no character is lost or added. */
  lemma {:induction false} JoinSplit(s: string, sep: char)
    ensures Join(Split(s, sep), sep) == s
    decreases |s|
  {
    if s != [] {
      JoinSplit(s[1..], sep);
      SplitCons(s[0], s[1..], sep);
      assert s == [s[0]] + s[1..];
      var rest := Split(s[1..], sep);
      if s[0] != sep {
        assert Join([[s[0]] + rest[0]] + rest[1..], sep) == [s[0]] + Join(rest, sep);
      }
    }
  }

  /** Splitting undoes joining pieces that do not contain the separator. */
  lemma {:induction false} SplitJoin(parts: seq<string>, sep: char)
    requires |parts| > 0
    requires forall i :: 0 <= i < |parts| ==> sep !in parts[i]
    ensures Split(Join(parts, sep), sep) == parts
    decreases |parts|, |parts[0]|
  {
    if |parts| == 1 {
      SplitNoSep(parts[0], sep);
    } else {
      var p := parts[0];
      var j := Join(parts[1..], sep);
      assert Join(parts, sep) == p + [sep] + j;
      if p == "" {
        assert p + [sep] + j == [sep] + j;
        SplitCons(sep, j, sep);
        SplitJoin(parts[1..], sep);
        assert [""] + parts[1..] == parts;
      } else {
        var shorter := [p[1..]] + parts[1..];
        assert shorter[0] == p[1..] && shorter[1..] == parts[1..];
        var k := Join(shorter, sep);
        assert k == p[1..] + [sep] + j;
        assert p + [sep] + j == [p[0]] + k by {
          assert p == [p[0]] + p[1..];
        }
        SplitJoin(shorter, sep);
        SplitCons(p[0], k, sep);
        assert [p[0]] + shorter[0] == p;
        assert [p] + parts[1..] == parts;
      }
    }
  }

  /** A string without the separator splits into itself. */
  lemma {:induction false} SplitNoSep(s: string, sep: char)
    requires sep !in s
    ensures Split(s, sep) == [s]
    decreases |s|
  {
    if s != [] {
      SplitNoSep(s[1..], sep);
      assert s == [s[0]] + s[1..];
    }
  }

  /** Splitting a concatenation around one separator splits each side. */
  lemma {:induction false} SplitAround(a: string, b: string, sep: char)
    ensures Split(a + [sep] + b, sep) == Split(a, sep) + Split(b, sep)
    decreases |a|
  {
    if a == [] {
      SplitCons(sep, b, sep);
      assert a + [sep] + b == [sep] + b;
    } else {
      SplitAround(a[1..], b, sep);
      SplitAroundStep(a, b, sep);
    }
  }

  /** One step of SplitAround: the property for `a` follows from the property for `a[1..]`. */
  lemma SplitAroundStep(a: string, b: string, sep: char)
    requires a != []
    requires Split(a[1..] + [sep] + b, sep) == Split(a[1..], sep) + Split(b, sep)
    ensures Split(a + [sep] + b, sep) == Split(a, sep) + Split(b, sep)
  {
    var tail := a[1..] + [sep] + b;
    assert a + [sep] + b == [a[0]] + tail by {
      assert a == [a[0]] + a[1..];
    }
    assert a == [a[0]] + a[1..];
    SplitConsAppend(a[0], tail, a[1..], Split(a[1..], sep), Split(b, sep), sep);
  }

  /** When `x` splits into the pieces of `y` followed by `more`, a character put in front of both
      keeps that relation. */
  lemma SplitConsAppend(c: char, x: string, y: string, pieces: seq<string>, more: seq<string>, sep: char)
    requires Split(y, sep) == pieces
    requires Split(x, sep) == pieces + more
    ensures Split([c] + x, sep) == Split([c] + y, sep) + more
  {
    var all := pieces + more;
    if c == sep {
      SplitCons(c, x, sep);
      SplitCons(c, y, sep);
      assert [""] + all == ([""] + pieces) + more;
    } else {
      SplitConsOther(c, x, sep, all);
      SplitConsOther(c, y, sep, pieces);
      ExtendFirstAppend([c], pieces, more);
    }
  }

  /** Extending the first piece commutes with appending further pieces. */
  lemma ExtendFirstAppend(prefix: string, pieces: seq<string>, more: seq<string>)
    requires |pieces| > 0
    ensures var all := pieces + more;
            [prefix + all[0]] + all[1..] == ([prefix + pieces[0]] + pieces[1..]) + more
  {
    var all := pieces + more;
    assert all[0] == pieces[0];
    assert all[1..] == pieces[1..] + more;
  }

  /** A character other than the separator joins the first piece. */
  lemma SplitConsOther(c: char, s: string, sep: char, pieces: seq<string>)
    requires c != sep
    requires Split(s, sep) == pieces
    ensures Split([c] + s, sep) == [[c] + pieces[0]] + pieces[1..]
  {
    SplitCons(c, s, sep);
  }

  /** Splitting a string with one more character in front. */
  lemma SplitCons(c: char, s: string, sep: char)
    ensures var rest := Split(s, sep);
            Split([c] + s, sep) == if c == sep then [""] + rest else [[c] + rest[0]] + rest[1..]
  {
    assert ([c] + s)[0] == c;
    assert ([c] + s)[1..] == s;
  }

  /** One `key=value` pair of the fragment. */
  datatype Param = Param(key: string, value: string)

  /** The pair in one `&`-separated piece: the text before its first `=` and the text between its
      first and second `=`. A piece that lacks either is None. */
  function ParsePair(piece: string): Option<Param> {
    var parts := Split(piece, '=');
    var key := parts[0];
    var value := if |parts| > 1 then parts[1] else "";
    if key != "" && value != "" then Some(Param(key, value)) else None
  }

  /** A well-formed `key=value` piece parses to its pair; text after a second `=` is dropped. */
  lemma ParsePairOf(parts: seq<string>)
    requires |parts| >= 2 && parts[0] != "" && parts[1] != ""
    requires forall i :: 0 <= i < |parts| ==> '=' !in parts[i]
    ensures ParsePair(Join(parts, '=')) == Some(Param(parts[0], parts[1]))
  {
    SplitJoin(parts, '=');
  }

  /** A piece with no `=`, or one that starts with `=`, or one with nothing after its first `=`,
      defines nothing. */
  lemma ParsePairIgnored(piece: string)
    ensures '=' !in piece ==> ParsePair(piece) == None
    ensures |piece| > 0 && piece[0] == '=' ==> ParsePair(piece) == None
    ensures |piece| > 0 && piece[|piece| - 1] == '=' && '=' !in piece[..|piece| - 1] ==>
              ParsePair(piece) == None
  {
    if |piece| > 0 && piece[|piece| - 1] == '=' && '=' !in piece[..|piece| - 1] {
      var key := piece[..|piece| - 1];
      assert piece == Join([key, ""], '=');
      SplitJoin([key, ""], '=');
    }
    if '=' !in piece {
      SplitNoSep(piece, '=');
    }
    if |piece| > 0 && piece[0] == '=' {
      assert Split(piece, '=')[0] == "";
    }
  }

  /** A piece whose text between its first two `=` is empty, such as `k==v` or `k==`, defines
      nothing. */
  lemma ParsePairEmptyValue(key: string, rest: string)
    requires '=' !in key
    ensures ParsePair(key + "==" + rest) == None
  {
    var piece := key + "==" + rest;
    assert piece == key + ['='] + ("=" + rest);
    SplitAround(key, "=" + rest, '=');
    SplitNoSep(key, '=');
    SplitCons('=', rest, '=');
    assert "=" + rest == ['='] + rest;
    assert Split(piece, '=')[1] == "";
  }

  /** A piece defines the pair `key`, `value` exactly when it reads `key=value`, possibly followed
      by `=` and any text, with `key` and `value` non-empty and free of `=`. */
  lemma ParsePairExact(piece: string, key: string, value: string)
    ensures ParsePair(piece) == Some(Param(key, value)) <==>
              && key != "" && value != "" && '=' !in key && '=' !in value
              && (piece == key + "=" + value || exists rest :: piece == key + "=" + value + "=" + rest)
  {
    if ParsePair(piece) == Some(Param(key, value)) {
      ParsedPieceShape(piece);
    }
    if && key != "" && value != "" && '=' !in key && '=' !in value {
      if piece == key + "=" + value {
        JoinPair(key, value, []);
        ParsePairOf([key, value]);
      } else if exists rest :: piece == key + "=" + value + "=" + rest {
        var rest :| piece == key + "=" + value + "=" + rest;
        var rs := Split(rest, '=');
        JoinSplit(rest, '=');
        JoinPair(key, value, rs);
        ParsePairOf([key, value] + rs);
      }
    }
  }

  /** Joining `key`, `value` and further pieces with `=`. */
  lemma JoinPair(key: string, value: string, more: seq<string>)
    ensures more == [] ==> Join([key, value] + more, '=') == key + "=" + value
    ensures more != [] ==> Join([key, value] + more, '=') == key + "=" + value + "=" + Join(more, '=')
  {
    var parts := [key, value] + more;
    assert parts[1..] == [value] + more;
    assert parts[1..][1..] == more;
  }

  /** A piece that parses to a pair reads `key=value`, possibly followed by `=` and any text. */
  lemma ParsedPieceShape(piece: string)
    requires ParsePair(piece).Some?
    ensures var q := ParsePair(piece).value;
            && q.key != "" && q.value != "" && '=' !in q.key && '=' !in q.value
            && (piece == q.key + "=" + q.value || exists rest :: piece == q.key + "=" + q.value + "=" + rest)
  {
    var parts := Split(piece, '=');
    var q := ParsePair(piece).value;
    assert |parts| >= 2 && parts[0] == q.key && parts[1] == q.value;
    JoinSplit(piece, '=');
    var more := parts[2..];
    assert parts == [q.key, q.value] + more;
    JoinPair(q.key, q.value, more);
    if more != [] {
      assert piece == q.key + "=" + q.value + "=" + Join(more, '=');
    }
  }

  /** The parameters defined by the pieces, read left to right; a later pair for a key overrides
      an earlier one. */
  function Params(pieces: seq<string>): map<string, string>
    decreases |pieces|
  {
    if pieces == [] then map[]
    else
      var m := Params(pieces[..|pieces| - 1]);
      match ParsePair(pieces[|pieces| - 1])
      case None => m
      case Some(p) => m[p.key := p.value]
  }

  /** Piece `i` sets `key`. */
  predicate SetsKey(pieces: seq<string>, i: int, key: string) {
    0 <= i < |pieces| && ParsePair(pieces[i]).Some? && ParsePair(pieces[i]).value.key == key
  }

  /** A key is defined exactly when some piece sets it. */
  lemma {:induction false} ParamsDefined(pieces: seq<string>, key: string)
    ensures key in Params(pieces) <==> exists i :: SetsKey(pieces, i, key)
    decreases |pieces|
  {
    if pieces != [] {
      var init := pieces[..|pieces| - 1];
      ParamsDefined(init, key);
      assert forall i :: 0 <= i < |init| ==> (SetsKey(init, i, key) <==> SetsKey(pieces, i, key));
      if key in Params(pieces) && !SetsKey(pieces, |pieces| - 1, key) {
        var i :| SetsKey(init, i, key);
        assert SetsKey(pieces, i, key);
      }
    }
  }

  /** A key holds the value of the last piece that sets it: later duplicates override earlier ones. */
  lemma {:induction false} ParamsLastWins(pieces: seq<string>, key: string, i: nat)
    requires SetsKey(pieces, i, key)
    requires forall j :: i < j < |pieces| ==> !SetsKey(pieces, j, key)
    ensures key in Params(pieces) && Params(pieces)[key] == ParsePair(pieces[i]).value.value
    decreases |pieces|
  {
    var n := |pieces| - 1;
    var init := pieces[..n];
    if i < n {
      assert SetsKey(init, i, key);
      assert forall j :: i < j < |init| ==> !SetsKey(init, j, key) by {
        forall j | i < j < |init| ensures !SetsKey(init, j, key) {
          assert init[j] == pieces[j];
          assert !SetsKey(pieces, j, key);
        }
      }
      ParamsLastWins(init, key, i);
      assert !SetsKey(pieces, n, key);
    }
  }

  /** The parameters of a fragment: everything after its first character, split on `&`. */
  function HashParams(hash: string): map<string, string>
    requires hash != ""
  {
    Params(Split(hash[1..], '&'))
  }

  /** The value the fragment sets for `key`, or "" when it sets none. */
  function Lookup(m: map<string, string>, key: string): string {
    if key in m then m[key] else ""
  }

  /** getOdooPageSignatureFromUrl: "" for an empty fragment, otherwise model, view type, action
      and record id joined by underscores, a missing one reading as "". */
  function Signature(hash: string): (r: string)
    ensures r == "" <==> hash == ""
  {
    if hash == "" then ""
    else
      var m := HashParams(hash);
      Lookup(m, "model") + "_" + Lookup(m, "view_type") + "_" + Lookup(m, "action") + "_" + Lookup(m, "id")
  }

  /** A non-empty parameter text with neither `&` nor `=` in it. */
  predicate Plain(x: string) {
    x != "" && '&' !in x && '=' !in x
  }

  /** The `&`-free piece `key=value`, which sets `key` to `value`. */
  lemma PairPiece(key: string, value: string)
    requires Plain(key) && Plain(value)
    ensures '&' !in key + "=" + value
    ensures ParsePair(key + "=" + value) == Some(Param(key, value))
  {
    assert key + "=" + value == Join([key, value], '=');
    ParsePairOf([key, value]);
  }

  /** A fragment listing the four keys, such as `#action=123&model=sale.order&view_type=list&id=456`,
      yields their values joined by underscores: `sale.order_list_123_456`. */
  lemma SignatureOfFragment(action: string, model: string, viewType: string, id: string)
    requires Plain(action) && Plain(model) && Plain(viewType) && Plain(id)
    ensures Signature("#" + Join(["action=" + action, "model=" + model, "view_type=" + viewType, "id=" + id], '&'))
            == model + "_" + viewType + "_" + action + "_" + id
  {
    var pieces := ["action=" + action, "model=" + model, "view_type=" + viewType, "id=" + id];
    var hash := "#" + Join(pieces, '&');
    assert "action=" + action == "action" + "=" + action;
    assert "model=" + model == "model" + "=" + model;
    assert "view_type=" + viewType == "view_type" + "=" + viewType;
    assert "id=" + id == "id" + "=" + id;
    PairPiece("action", action);
    PairPiece("model", model);
    PairPiece("view_type", viewType);
    PairPiece("id", id);
    assert hash[1..] == Join(pieces, '&');
    SplitJoin(pieces, '&');
    FourParams(pieces, action, model, viewType, id);
  }

  /** Four pieces setting the four keys, in any values, define them. */
  lemma FourParams(pieces: seq<string>, action: string, model: string, viewType: string, id: string)
    requires Plain(action) && Plain(model) && Plain(viewType) && Plain(id)
    requires pieces == ["action=" + action, "model=" + model, "view_type=" + viewType, "id=" + id]
    ensures && Lookup(Params(pieces), "action") == action
            && Lookup(Params(pieces), "model") == model
            && Lookup(Params(pieces), "view_type") == viewType
            && Lookup(Params(pieces), "id") == id
  {
    assert "action=" + action == "action" + "=" + action;
    assert "model=" + model == "model" + "=" + model;
    assert "view_type=" + viewType == "view_type" + "=" + viewType;
    assert "id=" + id == "id" + "=" + id;
    PairPiece("action", action);
    PairPiece("model", model);
    PairPiece("view_type", viewType);
    PairPiece("id", id);
    var keys := ["action", "model", "view_type", "id"];
    var values := [action, model, viewType, id];
    assert keys[0][0] == 'a' && keys[1][0] == 'm' && keys[2][0] == 'v' && keys[3][0] == 'i';
    DistinctKeysLookup(pieces, keys, values);
    assert Lookup(Params(pieces), keys[0]) == values[0];
    assert Lookup(Params(pieces), keys[1]) == values[1];
    assert Lookup(Params(pieces), keys[2]) == values[2];
    assert Lookup(Params(pieces), keys[3]) == values[3];
  }

  /** Pieces that set pairwise different keys define each key to its piece's value. */
  lemma DistinctKeysLookup(pieces: seq<string>, keys: seq<string>, values: seq<string>)
    requires |keys| == |pieces| && |values| == |pieces|
    requires forall j, k :: 0 <= j < k < |keys| ==> keys[j] != keys[k]
    requires forall j :: 0 <= j < |pieces| ==> ParsePair(pieces[j]) == Some(Param(keys[j], values[j]))
    ensures forall j :: 0 <= j < |pieces| ==> Lookup(Params(pieces), keys[j]) == values[j]
  {
    forall j | 0 <= j < |pieces| ensures Lookup(Params(pieces), keys[j]) == values[j] {
      ParamsLastWins(pieces, keys[j], j);
    }
  }

  /** A pair for a key other than the four read does not change the signature. */
  lemma OtherKeyIgnored(hash: string, piece: string)
    requires hash != ""
    requires '&' !in piece
    requires ParsePair(piece).Some? ==>
               ParsePair(piece).value.key !in {"model", "view_type", "action", "id"}
    ensures Signature(hash + "&" + piece) == Signature(hash)
  {
    var h := hash + "&" + piece;
    assert h[1..] == hash[1..] + ['&'] + piece;
    SplitAround(hash[1..], piece, '&');
    SplitNoSep(piece, '&');
    ParamsAppendOne(Split(hash[1..], '&'), [piece]);
  }

  /** A later `id` pair overrides an earlier one. */
  lemma LaterIdOverrides(hash: string, id: string)
    requires hash != ""
    requires Plain(id)
    ensures Lookup(HashParams(hash + "&id=" + id), "id") == id
  {
    var piece := "id" + "=" + id;
    PairPiece("id", id);
    var h := hash + "&id=" + id;
    assert h[1..] == hash[1..] + ['&'] + piece;
    SplitAround(hash[1..], piece, '&');
    SplitNoSep(piece, '&');
    var pieces := Split(hash[1..], '&') + [piece];
    ParamsLastWins(pieces, "id", |pieces| - 1);
  }

  /** Appending pieces none of which sets one of the four keys leaves those keys as they were. */
  lemma {:induction false} ParamsAppendOne(pieces: seq<string>, more: seq<string>)
    requires forall i :: 0 <= i < |more| && ParsePair(more[i]).Some? ==>
               ParsePair(more[i]).value.key !in {"model", "view_type", "action", "id"}
    ensures forall k :: k in {"model", "view_type", "action", "id"} ==>
              Lookup(Params(pieces + more), k) == Lookup(Params(pieces), k)
    decreases |more|
  {
    if more != [] {
      var init := more[..|more| - 1];
      ParamsAppendOne(pieces, init);
      assert (pieces + more)[..|pieces + more| - 1] == pieces + init;
    } else {
      assert pieces + more == pieces;
    }
  }

  /** The guard's state: the store it clears and the last signature it saw. */
  datatype Guard = Guard(store: Store, lastSignature: string)

  /** The guard after a check, and whether it cleared the store. */
  datatype Check = Check(guard: Guard, cleared: bool)

  /** setupNavigationListener: the first signature is recorded, with nothing filtered yet. */
  function StartGuard(hash: string): (g: Guard)
    ensures g.store == Empty && g.lastSignature == Signature(hash)
  {
    Guard(Empty, Signature(hash))
  }

  /** clearAllFilters: when the signature differs from the last one, both maps are emptied and the
      new signature recorded; otherwise nothing changes. Reports whether it cleared. */
  function ClearAllFilters(g: Guard, hash: string): (r: Check)
    ensures r.cleared <==> Signature(hash) != g.lastSignature
    ensures r.guard.lastSignature == Signature(hash)
    ensures r.cleared ==> r.guard.store == Empty
    ensures !r.cleared ==> r.guard == g
  {
    var current := Signature(hash);
    if current != g.lastSignature then Check(Guard(Empty, current), true)
    else Check(g, false)
  }

  /** A second check on the same page clears nothing and changes nothing. */
  lemma ClearIdempotent(g: Guard, hash: string)
    ensures var first := ClearAllFilters(g, hash);
            var second := ClearAllFilters(first.guard, hash);
            !second.cleared && second.guard == first.guard
  {
  }

  /** Right after start, a check on the same page clears nothing. */
  lemma StartThenCheck(hash: string)
    ensures ClearAllFilters(StartGuard(hash), hash) == Check(StartGuard(hash), false)
  {
  }

  /** A page change leaves the store with no filters, so the next visibility pass, which only an
      apply or a reset runs, displays every data row. The clear itself touches no row. */
  lemma ClearShowsEveryRow(g: Guard, hash: string, t: Table, tableId: string)
    requires Signature(hash) != g.lastSignature
    ensures var r := ClearAllFilters(g, hash);
            forall i :: 0 <= i < |t.rows| && t.rows[i].isDataRow ==>
              !ApplyAllFilters(r.guard.store, t, tableId).rows[i].hidden
  {
  }

  /** Rows hidden before a page change stay hidden after it, so the first partial apply after
      the clear snapshots the values of the rows displayed as they stand, stale hidden rows left out. */
  lemma SnapshotAfterClearUsesStaleRows(g: Guard, hash: string, t: Table, tableId: string,
                                        column: string, index: nat, allowed: seq<string>)
    requires Signature(hash) != g.lastSignature
    requires allowed != [] && |allowed| != |AllUniqueValues(t, index)|
    ensures var r := ClearAllFilters(g, hash);
            ApplyFilter(r.guard.store, t, tableId, column, index, allowed).store.snapshots[column]
            == VisibleUniqueValues(t, index)
  {
  }
}

=== FILE: popup.dfy ===
/** The popup controller: which values a column's popup lists, the initial state of its
    checkboxes, the select-all and per-value toggles, the search box, the values handed to the
    engine on apply, and the single-open-menu toggle. */
module Popup {
  import opened Wrappers
  import opened Seqs
  import opened Rows
  import opened Extract
  import opened FilterStore
  import opened Engine

  /** One listed value with its checkbox state and whether the search leaves it displayed. */
  datatype Choice = Choice(value: string, checked: bool, shown: bool)

  /** An open popup for the column named `column` at header index `index`. */
  datatype PopupState = PopupState(column: string, index: nat, choices: seq<Choice>, selectAll: bool)

  /** A candidate list, with the store after it was computed (it may cache a snapshot). */
  datatype Listing = Listing(store: Store, values: seq<string>)

  /** An opened popup with the store after opening it. */
  datatype Opened = Opened(store: Store, popup: PopupState)

  /** The values a column's popup lists. A filtered column lists its snapshot, taking and caching
      one from the displayed values when it has none; an unfiltered column lists the displayed
      values when another column of the table is filtered, and all values otherwise. */
  function CandidateList(s: Store, t: Table, tableId: string, column: string, index: nat): (r: Listing)
    ensures column in Filters(s, tableId) && column in s.snapshots ==>
              r.values == s.snapshots[column] && r.store == s
    ensures column in Filters(s, tableId) && column !in s.snapshots ==>
              && r.values == VisibleUniqueValues(t, index)
              && r.store == s.(snapshots := s.snapshots[column := r.values])
    ensures column !in Filters(s, tableId) && |Filters(s, tableId)| > 0 ==>
              r.values == VisibleUniqueValues(t, index) && r.store == s
    ensures |Filters(s, tableId)| == 0 ==> r.values == AllUniqueValues(t, index) && r.store == s
    ensures r.store.tables == s.tables
    ensures WellFormed(s) ==> WellFormed(r.store) && NoDup(r.values)
  {
    var f := Filters(s, tableId);
    if column in f then
      if column in s.snapshots then Listing(s, s.snapshots[column])
      else
        var visible := VisibleUniqueValues(t, index);
        Listing(s.(snapshots := s.snapshots[column := visible]), visible)
    else if |f| > 0 then Listing(s, VisibleUniqueValues(t, index))
    else Listing(s, AllUniqueValues(t, index))
  }

  /** Initial state of the checkbox of value `v`: membership in the column's own allow-list when
      the column is filtered, else membership in the displayed values when another column is
      filtered, else checked. */
  function ValueChecked(s: Store, t: Table, tableId: string, column: string, index: nat, v: string): bool {
    var f := Filters(s, tableId);
    if column in f then v in f[column]
    else if |f| > 0 then v in VisibleUniqueValues(t, index)
    else true
  }

  /** Initial state of the select-all checkbox for the listed `values`. A filtered column compares
      the length of its allow-list with the number of listed values; an unfiltered column with
      other filters compares the number of displayed values with it. */
  function InitialSelectAll(s: Store, t: Table, tableId: string, column: string, index: nat,
                            values: seq<string>): bool {
    var f := Filters(s, tableId);
    if column in f then
      if |f[column]| == 0 then false
      else if |f[column]| == |values| then true
      else false
    else if |f| > 0 then |VisibleUniqueValues(t, index)| == |values|
    else true
  }

  /** createFilterMenu: the popup's listed values and the initial state of every checkbox. */
  function OpenPopup(s: Store, t: Table, tableId: string, column: string, index: nat): (r: Opened)
    ensures var listing := CandidateList(s, t, tableId, column, index);
            && r.store == listing.store
            && r.popup.column == column && r.popup.index == index
            && |r.popup.choices| == |listing.values|
            && (forall i :: 0 <= i < |r.popup.choices| ==>
                  r.popup.choices[i] ==
                    Choice(listing.values[i], ValueChecked(s, t, tableId, column, index, listing.values[i]), true))
            && r.popup.selectAll == InitialSelectAll(s, t, tableId, column, index, listing.values)
  {
    var listing := CandidateList(s, t, tableId, column, index);
    var choices := seq(|listing.values|, i requires 0 <= i < |listing.values| =>
                         Choice(listing.values[i], ValueChecked(s, t, tableId, column, index, listing.values[i]), true));
    Opened(listing.store, PopupState(column, index, choices, InitialSelectAll(s, t, tableId, column, index, listing.values)))
  }

  /** The values of the choices, in order. */
  function Values(cs: seq<Choice>): (r: seq<string>)
    ensures |r| == |cs|
    ensures forall i :: 0 <= i < |cs| ==> r[i] == cs[i].value
  {
    seq(|cs|, i requires 0 <= i < |cs| => cs[i].value)
  }

  /** Every choice is checked. */
  predicate AllChecked(cs: seq<Choice>) {
    forall i :: 0 <= i < |cs| ==> cs[i].checked
  }

  /** The number of checked choices. */
  function CountChecked(cs: seq<Choice>): (n: nat)
    ensures n <= |cs|
    ensures n == |cs| <==> AllChecked(cs)
    ensures n == 0 <==> forall i :: 0 <= i < |cs| ==> !cs[i].checked
    decreases |cs|
  {
    if cs == [] then 0
    else
      var init := cs[..|cs| - 1];
      assert forall i :: 0 <= i < |init| ==> init[i] == cs[i];
      CountChecked(init) + (if cs[|cs| - 1].checked then 1 else 0)
  }

  /** updateSelectAllState: select-all from the count of checked values. */
  function RecomputeSelectAll(cs: seq<Choice>): (r: bool)
    ensures r <==> |cs| > 0 && AllChecked(cs)
  {
    var checkedCount := CountChecked(cs);
    if checkedCount == 0 then false
    else if checkedCount == |cs| then true
    else false
  }

  /** The user clicks select-all: it flips, and every value checkbox, shown or not, takes its state. */
  function ToggleSelectAll(p: PopupState): (r: PopupState)
    ensures r.column == p.column && r.index == p.index && |r.choices| == |p.choices|
    ensures r.selectAll == !p.selectAll
    ensures forall i :: 0 <= i < |p.choices| ==>
              r.choices[i] == p.choices[i].(checked := r.selectAll)
  {
    var on := !p.selectAll;
    p.(choices := seq(|p.choices|, i requires 0 <= i < |p.choices| => p.choices[i].(checked := on)),
       selectAll := on)
  }

  /** The user clicks value `k`: its checkbox flips and select-all is recomputed. */
  function ToggleChoice(p: PopupState, k: nat): (r: PopupState)
    requires k < |p.choices|
    ensures r.column == p.column && r.index == p.index && |r.choices| == |p.choices|
    ensures r.choices[k] == p.choices[k].(checked := !p.choices[k].checked)
    ensures forall i :: 0 <= i < |p.choices| && i != k ==> r.choices[i] == p.choices[i]
    // select-all is checked iff there is an option and all options are checked
    ensures r.selectAll <==> |r.choices| > 0 && AllChecked(r.choices)
  {
    var choices := p.choices[k := p.choices[k].(checked := !p.choices[k].checked)];
    p.(choices := choices, selectAll := RecomputeSelectAll(choices))
  }

  /** `sub` occurs in `s`: it is a prefix of some suffix of `s`. */
  predicate Contains(s: string, sub: string) {
    exists i :: 0 <= i <= |s| && sub <= s[i..]
  }

  /** The label of a value: the empty value is labelled "(Boş)". */
  function Label(v: string): string {
    if v == "" then "(Boş)" else v
  }

  /** The search box: a value stays displayed iff its lower-cased label contains the lower-cased
      search text. `lower` stands for the string's case mapping to lower case. Checkbox states and
      select-all are not touched. */
  function Search(p: PopupState, text: string, lower: string -> string): (r: PopupState)
    ensures r.column == p.column && r.index == p.index && r.selectAll == p.selectAll
    ensures |r.choices| == |p.choices|
    ensures forall i :: 0 <= i < |p.choices| ==>
              && r.choices[i].value == p.choices[i].value
              && r.choices[i].checked == p.choices[i].checked
              && (r.choices[i].shown <==> Contains(lower(Label(p.choices[i].value)), lower(text)))
  {
    var needle := lower(text);
    p.(choices := seq(|p.choices|, i requires 0 <= i < |p.choices| =>
                        p.choices[i].(shown := Contains(lower(Label(p.choices[i].value)), needle))))
  }

  /** The apply button: the values whose checkbox is checked, in listed order, shown or not. */
  function CollectChecked(cs: seq<Choice>): (r: seq<string>)
    ensures |r| == CountChecked(cs)
    ensures forall v :: v in r <==> exists i :: 0 <= i < |cs| && cs[i].checked && cs[i].value == v
    ensures AllChecked(cs) ==> r == Values(cs)
    decreases |cs|
  {
    if cs == [] then []
    else
      var init := cs[..|cs| - 1];
      var last := cs[|cs| - 1];
      assert forall i :: 0 <= i < |init| ==> init[i] == cs[i];
      assert AllChecked(cs) ==> AllChecked(init) && Values(cs) == Values(init) + [last.value];
      CollectChecked(init) + (if last.checked then [last.value] else [])
  }

  /** The single open menu, remembered with the column it was opened for. */
  datatype Menu = Closed | Open(popup: PopupState)

  /** The menu and store after a click on a column's filter icon. */
  datatype MenuStep = MenuStep(menu: Menu, store: Store)

  /** closeOpenFilterMenu: closing is unconditional and idempotent. */
  function CloseMenu(m: Menu): (r: Menu)
    ensures r.Closed?
  {
    Closed
  }

  /** The store, table and menu after a footer button. */
  datatype Confirmed = Confirmed(session: Session, menu: Menu)

  /** The apply button: the checked values, searched out or not, go to applyFilter for the popup's
      column, and the menu closes. */
  function ConfirmApply(s: Store, t: Table, tableId: string, p: PopupState): (r: Confirmed)
    ensures r.menu == Closed
    ensures r.session == ApplyFilter(s, t, tableId, p.column, p.index, CollectChecked(p.choices))
    // as many checked options as the column has values, whichever they are: the column ends unfiltered
    ensures CountChecked(p.choices) == |AllUniqueValues(t, p.index)| ==>
              p.column !in r.session.store.tables[tableId] && p.column !in r.session.store.snapshots
    // no option checked on a column that has values: the column ends with the empty allow-list
    ensures CountChecked(p.choices) == 0 && |AllUniqueValues(t, p.index)| > 0 ==>
              p.column in r.session.store.tables[tableId] && r.session.store.tables[tableId][p.column] == []
    // any other count: the column's allow-list is exactly the checked values
    ensures 0 < CountChecked(p.choices) != |AllUniqueValues(t, p.index)| ==>
              p.column in r.session.store.tables[tableId] &&
              (forall v :: v in r.session.store.tables[tableId][p.column] <==>
                 exists i :: 0 <= i < |p.choices| && p.choices[i].checked && p.choices[i].value == v)
  {
    Confirmed(ApplyFilter(s, t, tableId, p.column, p.index, CollectChecked(p.choices)), CloseMenu(Open(p)))
  }

  /** The reset button: the popup's column is reset and the menu closes. */
  function ConfirmReset(s: Store, t: Table, tableId: string, p: PopupState): (r: Confirmed)
    ensures r.menu == Closed
    ensures r.session == ResetColumn(s, t, tableId, p.column)
    ensures tableId in s.tables ==>
              p.column !in r.session.store.tables[tableId] && p.column !in r.session.store.snapshots
  {
    Confirmed(ResetColumn(s, t, tableId, p.column), CloseMenu(Open(p)))
  }

  /** toggleFilterMenu: clicking the icon of the column whose menu is open closes it; any other
      click closes the open menu and opens a fresh one for the clicked column. Only column names
      are compared, not tables. */
  function ToggleMenu(m: Menu, s: Store, t: Table, tableId: string, column: string, index: nat): (r: MenuStep)
    ensures m.Open? && m.popup.column == column ==> r == MenuStep(Closed, s)
    ensures !(m.Open? && m.popup.column == column) ==>
              var o := OpenPopup(s, t, tableId, column, index);
              r == MenuStep(Open(o.popup), o.store)
  {
    if m.Open? && m.popup.column == column then MenuStep(CloseMenu(m), s)
    else
      var o := OpenPopup(s, t, tableId, column, index);
      MenuStep(Open(o.popup), o.store)
  }

  /** An unfiltered column opens with select-all and every value checked, whether or not other
      columns of the table are filtered. */
  lemma UnfilteredPopupAllChecked(s: Store, t: Table, tableId: string, column: string, index: nat)
    requires column !in Filters(s, tableId)
    ensures var p := OpenPopup(s, t, tableId, column, index).popup;
            p.selectAll && AllChecked(p.choices)
  {
  }

  /** A filtered column whose allow-list is drawn, without repeats, from the listed values opens
      with select-all checked exactly when there is a value and every value is checked. */
  lemma FilteredPopupSelectAll(s: Store, t: Table, tableId: string, column: string, index: nat)
    requires WellFormed(s)
    requires column in Filters(s, tableId)
    requires NoDup(Filters(s, tableId)[column])
    requires forall v :: v in Filters(s, tableId)[column] ==> v in CandidateList(s, t, tableId, column, index).values
    ensures var p := OpenPopup(s, t, tableId, column, index).popup;
            p.selectAll <==> |p.choices| > 0 && AllChecked(p.choices)
  {
    var allowed := Filters(s, tableId)[column];
    var values := CandidateList(s, t, tableId, column, index).values;
    var p := OpenPopup(s, t, tableId, column, index).popup;
    assert forall i :: 0 <= i < |p.choices| ==> (p.choices[i].checked <==> values[i] in allowed);
    if |allowed| > 0 && |allowed| == |values| {
      NoDupSubset(allowed, values);
    }
    if |p.choices| > 0 && AllChecked(p.choices) {
      assert forall v :: v in values ==> v in allowed by {
        forall v | v in values ensures v in allowed {
          var i :| 0 <= i < |values| && values[i] == v;
          assert p.choices[i].checked;
        }
      }
      NoDupSubset(values, allowed);
      NoDupSubset(allowed, values);
    }
  }

  /** With no filter on the table, opening a column's popup and applying it unchanged leaves the
      column unrestricted and without a snapshot. */
  lemma OpenThenApplyUnchanged(s: Store, t: Table, tableId: string, column: string, index: nat)
    requires |Filters(s, tableId)| == 0
    ensures var o := OpenPopup(s, t, tableId, column, index);
            var r := ConfirmApply(o.store, t, tableId, o.popup).session;
            column !in r.store.tables[tableId] && column !in r.store.snapshots
  {
    var o := OpenPopup(s, t, tableId, column, index);
    UnfilteredPopupAllChecked(s, t, tableId, column, index);
    assert CollectChecked(o.popup.choices) == Values(o.popup.choices);
    assert |CollectChecked(o.popup.choices)| == |AllUniqueValues(t, index)|;
  }

  /** The snapshot freeze: once a column is filtered and has a snapshot, filtering another column,
      in this table or any other, leaves the popup of the first column listing that same snapshot. */
  lemma ReopenAfterOtherApply(s: Store, t: Table, tableId: string, column: string, index: nat,
                              u: Table, otherId: string, d: string, dIndex: nat, allowed: seq<string>)
    requires column in Filters(s, tableId) && column in s.snapshots
    requires d != column
    ensures var r := ApplyFilter(s, u, otherId, d, dIndex, allowed);
            CandidateList(r.store, r.table, tableId, column, index).values == s.snapshots[column]
  {
    ApplyKeepsOtherColumns(s, u, otherId, d, dIndex, allowed, tableId, column);
  }

  /** The same freeze across a reset of another column. */
  lemma ReopenAfterOtherReset(s: Store, t: Table, tableId: string, column: string, index: nat,
                              u: Table, otherId: string, d: string)
    requires column in Filters(s, tableId) && column in s.snapshots
    requires d != column
    ensures var r := ResetColumn(s, u, otherId, d);
            CandidateList(r.store, r.table, tableId, column, index).values == s.snapshots[column]
  {
    ResetKeepsOtherColumns(s, u, otherId, d, tableId, column);
  }

  /** After a partial apply the column's popup lists its snapshot: the one it already had, or the
      values displayed before this apply took effect. */
  lemma ReopenAfterPartialApply(s: Store, t: Table, tableId: string, column: string, index: nat,
                                allowed: seq<string>)
    requires allowed != [] && |allowed| != |AllUniqueValues(t, index)|
    ensures var r := ApplyFilter(s, t, tableId, column, index, allowed);
            CandidateList(r.store, r.table, tableId, column, index).values ==
              if column in s.snapshots then s.snapshots[column] else VisibleUniqueValues(t, index)
  {
  }

  /** An empty apply takes no snapshot, so when the column had none, reopening its popup lists
      the values displayed after the apply, and caches them. When the column name resolves to the
      popup's index, those are no values at all: the popup reopens empty. */
  lemma ReopenAfterEmptyApply(s: Store, t: Table, tableId: string, column: string, index: nat)
    requires |AllUniqueValues(t, index)| > 0
    requires column !in s.snapshots
    ensures var r := ApplyFilter(s, t, tableId, column, index, []);
            var l := CandidateList(r.store, r.table, tableId, column, index);
            && l.values == VisibleUniqueValues(r.table, index)
            && l.store.snapshots[column] == l.values
            && (FindColumnIndex(t.header, column) == Some(index) ==> l.values == [])
  {
    var r := ApplyFilter(s, t, tableId, column, index, []);
    if FindColumnIndex(t.header, column) == Some(index) {
      EmptyApplyHidesRows(s, t, tableId, column, index);
      NothingDisplayedNoValues(r.table, index);
    }
  }

  /** Two choice lists that agree on values and checkbox states collect the same values. */
  lemma {:induction false} CollectIgnoresShown(cs: seq<Choice>, ds: seq<Choice>)
    requires |cs| == |ds|
    requires forall i :: 0 <= i < |cs| ==> cs[i].value == ds[i].value && cs[i].checked == ds[i].checked
    ensures CollectChecked(cs) == CollectChecked(ds)
    decreases |cs|
  {
    if cs != [] {
      CollectIgnoresShown(cs[..|cs| - 1], ds[..|ds| - 1]);
    }
  }

  /** Searching never changes which values an apply hands to the engine. */
  lemma SearchKeepsCollected(p: PopupState, text: string, lower: string -> string)
    ensures CollectChecked(Search(p, text, lower).choices) == CollectChecked(p.choices)
  {
    CollectIgnoresShown(Search(p, text, lower).choices, p.choices);
  }

  /** An empty search text displays every value, for a case mapping that keeps "" empty. */
  lemma EmptySearchShowsAll(p: PopupState, lower: string -> string)
    requires lower("") == ""
    ensures forall i :: 0 <= i < |p.choices| ==> Search(p, "", lower).choices[i].shown
  {
    forall i | 0 <= i < |p.choices| ensures Search(p, "", lower).choices[i].shown {
      var lowered := lower(Label(p.choices[i].value));
      assert "" <= lowered[0..];
    }
  }

  /** After select-all is toggled on a non-empty list, it agrees with the recomputed state. */
  lemma SelectAllToggleConsistent(p: PopupState)
    requires |p.choices| > 0
    ensures var r := ToggleSelectAll(p);
            r.selectAll == RecomputeSelectAll(r.choices)
  {
    var r := ToggleSelectAll(p);
    if !r.selectAll {
      assert !r.choices[0].checked;
    }
  }

  /** Clicking the same column's icon twice opens and then closes its menu, and the second click
      leaves the store as the first click left it. */
  lemma ToggleTwiceCloses(m: Menu, s: Store, t: Table, tableId: string, column: string, index: nat)
    requires !(m.Open? && m.popup.column == column)
    ensures var r1 := ToggleMenu(m, s, t, tableId, column, index);
            var r2 := ToggleMenu(r1.menu, r1.store, t, tableId, column, index);
            r1.menu.Open? && r1.menu.popup.column == column && r2 == MenuStep(Closed, r1.store)
  {
  }
}

=== FILE: rows.dfy ===
/** The shape of one rendered list table, abstracted from the DOM: the `data-name` attribute of
    each header cell, and for each body row its `o_data_row` class, whether it is currently
    displayed, and its cells. */
module Rows {
  import opened Wrappers

  /** First-cell text of the "add a line" row the host renders under editable lists. */
  const AddRowMarker: string := "Satır Ekle"

  /** One `td`: its `data-tooltip` attribute ("" when absent) and its text content, already trimmed. */
  datatype Cell = Cell(tooltip: string, text: string)

  /** One `tbody tr`. `hidden` is its computed `display: none` state. */
  datatype Row = Row(isDataRow: bool, hidden: bool, cells: seq<Cell>)

  /** A table: the `data-name` of every `thead tr th` (None when the attribute is missing), and the body rows. */
  datatype Table = Table(header: seq<Option<string>>, rows: seq<Row>)

  /** The display value of a cell: the tooltip when it is non-empty, otherwise the trimmed text. */
  function CellValue(c: Cell): (v: string)
    ensures c.tooltip != "" ==> v == c.tooltip
    ensures c.tooltip == "" ==> v == c.text
  {
    if c.tooltip != "" then c.tooltip else c.text
  }

  /** A structural placeholder row: its first cell reads the add-a-line marker, or every cell's
      text is empty (vacuously so for a row without cells). Tooltips play no part here. */
  predicate IsSpecialRow(row: Row) {
    || (|row.cells| > 0 && row.cells[0].text == AddRowMarker)
    || (forall i :: 0 <= i < |row.cells| ==> row.cells[i].text == "")
  }

  /** The ways a row is classified. */
  lemma SpecialRowCases(row: Row)
    ensures row.cells == [] ==> IsSpecialRow(row)
    ensures |row.cells| > 0 && row.cells[0].text == AddRowMarker ==> IsSpecialRow(row)
    ensures (forall i :: 0 <= i < |row.cells| ==> row.cells[i].text == "") ==> IsSpecialRow(row)
    ensures ((|row.cells| == 0 || row.cells[0].text != AddRowMarker) &&
             (exists i :: 0 <= i < |row.cells| && row.cells[i].text != ""))
            ==> !IsSpecialRow(row)
  {
  }

  /** The script's check, step by step: the marker test on the first cell, then a scan that stops
      at the first cell with text. It decides exactly IsSpecialRow. */
  method ClassifyRow(row: Row) returns (special: bool)
    ensures special <==> IsSpecialRow(row)
    ensures !special ==> exists i :: 0 <= i < |row.cells| && row.cells[i].text != ""
  {
    if |row.cells| > 0 && row.cells[0].text == AddRowMarker {
      return true;
    }
    var i := 0;
    while i < |row.cells|
      invariant 0 <= i <= |row.cells|
      invariant forall j :: 0 <= j < i ==> row.cells[j].text == ""
    {
      if row.cells[i].text != "" {
        return false;
      }
      i := i + 1;
    }
    return true;
  }

  /** The index of the first header cell whose `data-name` is `name`, scanning left to right. */
  function FindColumnIndex(header: seq<Option<string>>, name: string): (r: Option<nat>)
    ensures r.Some? ==> r.value < |header| && header[r.value] == Some(name)
    ensures r.Some? ==> forall j :: 0 <= j < r.value ==> header[j] != Some(name)
    ensures r.None? ==> forall j :: 0 <= j < |header| ==> header[j] != Some(name)
  {
    FindFrom(header, name, 0)
  }

  /** Scan of `header[from..]`, the script's `for` loop resumed at `from`. */
  function FindFrom(header: seq<Option<string>>, name: string, from: nat): (r: Option<nat>)
    requires from <= |header|
    requires forall j :: 0 <= j < from ==> header[j] != Some(name)
    ensures r.Some? ==> from <= r.value < |header| && header[r.value] == Some(name)
    ensures r.Some? ==> forall j :: 0 <= j < r.value ==> header[j] != Some(name)
    ensures r.None? ==> forall j :: 0 <= j < |header| ==> header[j] != Some(name)
    decreases |header| - from
  {
    if from == |header| then None
    else if header[from] == Some(name) then Some(from)
    else FindFrom(header, name, from + 1)
  }
}

=== FILE: scenarios.dfy ===
/** Worked examples on a small table: a "Status" column filtered to one value, and the popup of a
    second column narrowed by that filter. */
module Scenarios {
  import opened Wrappers
  import opened Seqs
  import opened Rows
  import opened Extract
  import opened FilterStore
  import opened Engine
  import opened Popup

  /** A displayed data row with a status and a region, both as plain text. */
  function Line(status: string, region: string): Row {
    Row(true, false, [Cell("", status), Cell("", region)])
  }

  /** Four rows: Open/North, Closed/South, Open/East, Pending/South. */
  function Orders(): Table {
    Table([Some("status"), Some("region")],
          [Line("Open", "North"), Line("Closed", "South"), Line("Open", "East"), Line("Pending", "South")])
  }

  /** The status column has the three values Open, Closed and Pending. */
  lemma StatusValues()
    ensures forall v :: v in AllUniqueValues(Orders(), 0) <==> v in ["Open", "Closed", "Pending"]
    ensures |AllUniqueValues(Orders(), 0)| == 3
  {
    var all := AllUniqueValues(Orders(), 0);
    StatusValuesPresent();
    StatusValuesOnly();
    NoDupSubset(all, ["Open", "Closed", "Pending"]);
    NoDupSubset(["Open", "Closed", "Pending"], all);
  }

  /** Each of Open, Closed and Pending is a status value. */
  lemma StatusValuesPresent()
    ensures forall v :: v in ["Open", "Closed", "Pending"] ==> v in AllUniqueValues(Orders(), 0)
  {
    var t := Orders();
    assert HasValue(t.rows[0], 0, false, "Open");
    assert HasValue(t.rows[1], 0, false, "Closed");
    assert HasValue(t.rows[3], 0, false, "Pending");
  }

  /** No other status value occurs. */
  lemma StatusValuesOnly()
    ensures forall v :: v in AllUniqueValues(Orders(), 0) ==> v in ["Open", "Closed", "Pending"]
  {
    var t := Orders();
    var statuses := ["Open", "Closed", "Pending"];
    assert CellValue(t.rows[0].cells[0]) in statuses;
    assert CellValue(t.rows[1].cells[0]) in statuses;
    assert CellValue(t.rows[2].cells[0]) in statuses;
    assert CellValue(t.rows[3].cells[0]) in statuses;
    ValuesWithin(t, 0, statuses);
  }

  /** Filtering status to ["Open"] stores exactly that allow-list as the table's only filter. */
  lemma StoreAfterStatusOpen()
    ensures Filters(ApplyToStore(Empty, Orders(), "table_1", "status", 0, ["Open"]), "table_1")
            == map["status" := ["Open"]]
  {
    StatusValues();
    var s := ApplyToStore(Empty, Orders(), "table_1", "status", 0, ["Open"]);
    var f := Filters(s, "table_1");
    assert "status" in f && f["status"] == ["Open"];
    assert f - {"status"} == map[];
    assert f.Keys == {"status"};
  }

  /** Filtering status to ["Open"] keeps rows 1 and 3 displayed and hides rows 2 and 4. */
  lemma FilterStatusOpen()
    ensures var r := ApplyFilter(Empty, Orders(), "table_1", "status", 0, ["Open"]);
            && Filters(r.store, "table_1") == map["status" := ["Open"]]
            && !r.table.rows[0].hidden && r.table.rows[1].hidden
            && !r.table.rows[2].hidden && r.table.rows[3].hidden
  {
    StoreAfterStatusOpen();
    var t := Orders();
    var f := map["status" := ["Open"]];
    var v := ApplyAllFilters(ApplyToStore(Empty, t, "table_1", "status", 0, ["Open"]), t, "table_1");
    ShownUnderOpen(0);
    ShownUnderOpen(1);
    ShownUnderOpen(2);
    ShownUnderOpen(3);
    assert forall i :: 0 <= i < 4 ==> v.rows[i] == Refresh(t.header, f, t.rows[i]);
  }

  /** Under the status filter ["Open"], exactly the Open rows of the orders are displayed. */
  lemma ShownUnderOpen(i: nat)
    requires i < 4
    ensures var t := Orders();
            Shown(t.header, map["status" := ["Open"]], t.rows[i]) <==> i == 0 || i == 2
  {
    var t := Orders();
    var f := map["status" := ["Open"]];
    var row := t.rows[i];
    assert FindColumnIndex(t.header, "status") == Some(0);
    assert !IsSpecialRow(row) by {
      assert row.cells[0].text != "";
    }
    assert f.Keys == {"status"};
    assert Blocks(t.header, row, "status", f["status"]) <==> !(i == 0 || i == 2);
  }

  /** With status filtered to ["Open"], the region popup offers only the regions of the rows still
      displayed: North and East. */
  lemma RegionPopupNarrowed()
    ensures var r := ApplyFilter(Empty, Orders(), "table_1", "status", 0, ["Open"]);
            var values := CandidateList(r.store, r.table, "table_1", "region", 1).values;
            forall v :: v in values <==> v == "North" || v == "East"
  {
    FilterStatusOpen();
    var r := ApplyFilter(Empty, Orders(), "table_1", "status", 0, ["Open"]);
    assert SameContent(r.table, Orders());
    RegionPopupOf(r);
  }

  /** The region popup of a session in which only the status filter ["Open"] is set on the orders
      and rows 2 and 4 are hidden. */
  lemma RegionPopupOf(r: Session)
    requires Filters(r.store, "table_1") == map["status" := ["Open"]]
    requires SameContent(r.table, Orders())
    requires !r.table.rows[0].hidden && r.table.rows[1].hidden
    requires !r.table.rows[2].hidden && r.table.rows[3].hidden
    ensures var values := CandidateList(r.store, r.table, "table_1", "region", 1).values;
            forall v :: v in values <==> v == "North" || v == "East"
  {
    var t := r.table;
    assert forall i :: 0 <= i < 4 ==> t.rows[i].isDataRow && t.rows[i].cells == Orders().rows[i].cells;
    RegionValues(t);
  }

  /** The regions of the displayed rows of a table shaped like the orders, with rows 2 and 4 hidden. */
  lemma RegionValues(t: Table)
    requires |t.rows| == 4
    requires forall i :: 0 <= i < 4 ==> t.rows[i].isDataRow && t.rows[i].cells == Orders().rows[i].cells
    requires !t.rows[0].hidden && t.rows[1].hidden && !t.rows[2].hidden && t.rows[3].hidden
    ensures forall v :: v in VisibleUniqueValues(t, 1) <==> v == "North" || v == "East"
  {
    assert t.rows[0].cells == [Cell("", "Open"), Cell("", "North")];
    assert t.rows[2].cells == [Cell("", "Open"), Cell("", "East")];
    assert HasValue(t.rows[0], 1, true, "North");
    assert HasValue(t.rows[2], 1, true, "East");
    var values := VisibleUniqueValues(t, 1);
    forall v | v in values ensures v == "North" || v == "East" {
      var i :| 0 <= i < |t.rows| && HasValue(t.rows[i], 1, true, v);
      assert i == 0 || i == 2;
    }
  }
}

=== FILE: seqs.dfy ===
/** Facts about duplicate-free sequences, shared by the value extractor and the filter store. */
module Seqs {

  /** No value occurs twice. */
  predicate NoDup<T(==)>(s: seq<T>) {
    forall i, j :: 0 <= i < j < |s| ==> s[i] != s[j]
  }

  /** A duplicate-free sequence has as many elements as its set of elements. */
  lemma {:induction false} NoDupCard<T>(s: seq<T>)
    requires NoDup(s)
    ensures |set x | x in s| == |s|
    decreases |s|
  {
    if s != [] {
      var init := s[..|s| - 1];
      var x := s[|s| - 1];
      assert s == init + [x];
      NoDupCard(init);
      assert x !in init;
      assert (set y | y in s) == (set y | y in init) + {x};
    }
  }

  /** A duplicate-free sequence whose elements all occur in a duplicate-free `b` is no longer than
      `b`; if it is as long, the two hold the same elements. */
  lemma NoDupSubset<T>(a: seq<T>, b: seq<T>)
    requires NoDup(a) && NoDup(b)
    requires forall x :: x in a ==> x in b
    ensures |a| <= |b|
    ensures |a| == |b| ==> forall x :: x in b ==> x in a
  {
    var sa := set x | x in a;
    var sb := set x | x in b;
    NoDupCard(a);
    NoDupCard(b);
    assert sa <= sb;
    assert |sb - sa| == |sb| - |sa|;
    if |a| == |b| {
      assert sb - sa == {};
      forall x | x in b ensures x in a {
        assert x in sb;
      }
    }
  }
}

=== FILE: table_identity.dfy ===
/** The table id under which a table's filters are stored. The popup reads the id of the table's
    list-view container with a "" fallback; the apply and reset buttons generate "table_" plus a
    random suffix when the container carries no id, and store it on the container when there is
    one. The random suffix is an input here. */
module TableIdentity {

  /** The table's `.o_list_view` ancestor: missing, or present with its `data-id` ("" when unset). */
  datatype Container = Detached | Attached(dataId: string)

  /** The id and the container after the apply or reset button resolved it. */
  datatype Resolved = Resolved(id: string, container: Container)

  /** The prefix of generated ids. */
  const GeneratedPrefix: string := "table_"

  /** The id the popup uses to read the store: the container's id, or "" without one. */
  function MenuTableId(c: Container): (id: string)
    ensures c.Detached? ==> id == ""
    ensures c.Attached? ==> id == c.dataId
  {
    match c
    case Detached => ""
    case Attached(dataId) => dataId
  }

  /** The id the apply and reset buttons use: the container's non-empty id, or a generated one,
      which an attached container keeps from then on. */
  function HandlerTableId(c: Container, suffix: string): (r: Resolved)
    ensures r.id != ""
    ensures c.Attached? && c.dataId != "" ==> r == Resolved(c.dataId, c)
    ensures !(c.Attached? && c.dataId != "") ==> r.id == GeneratedPrefix + suffix
    ensures c.Attached? ==> r.container == Attached(r.id)
    ensures c.Detached? ==> r.container == Detached
  {
    match c
    case Attached(dataId) =>
      if dataId != "" then Resolved(dataId, c)
      else Resolved(GeneratedPrefix + suffix, Attached(GeneratedPrefix + suffix))
    case Detached => Resolved(GeneratedPrefix + suffix, Detached)
  }

  /** Once an attached table has been through an apply or a reset, its id is fixed: later buttons
      resolve the same id whatever the random suffix, and the popup reads the store under it. */
  lemma AttachedIdIsStable(c: Container, suffix: string, later: string)
    requires c.Attached?
    ensures var r := HandlerTableId(c, suffix);
            && HandlerTableId(r.container, later) == r
            && MenuTableId(r.container) == r.id
  {
  }

  /** A table without a container gets a different id on every button press with a different
      suffix, and its popup reads the store under "", an id the buttons never use. */
  lemma DetachedIdIsFresh(suffix: string, other: string)
    requires suffix != other
    ensures HandlerTableId(Detached, suffix).id != HandlerTableId(Detached, other).id
    ensures MenuTableId(Detached) != HandlerTableId(Detached, suffix).id
  {
    assert (GeneratedPrefix + suffix)[|GeneratedPrefix|..] == suffix;
    assert (GeneratedPrefix + other)[|GeneratedPrefix|..] == other;
  }
}

=== FILE: wrappers.dfy ===
/** Optional values: a missing `data-name` attribute, a column name that resolves to no index,
    a URL parameter pair that lacks its key or its value. */
module Wrappers {

  datatype Option<+T> = None | Some(value: T)
}
